=== FILE: README.md ===
# MindCare account and journal core, modelled in Dafny

MindCare is a journaling web application. Users register, confirm their email with a
six-digit one-time code (OTP), log in and keep private journal entries that carry a mood
label and a pin flag. This project models the logic of its backend and the pure helpers of
its dashboard page. It proves that model against the behaviour the code promises.

- **Account lifecycle** (`UserStore`, `AuthService`, `AuthLifecycle`). The `users` table is
  a sequence of rows in insertion order plus the next AUTO_INCREMENT id. `Valid` states the
  table's constraints: emails are unique and ids increase. `register` and `verifyOtp`
  are pure transitions: each returns the table it leaves behind and a reply, a success
  value or an `AuthError`. `login` and `adminLogin` only read the table and return a
  reply. Each handler decides its outcome through the same ordered guards as the
  controller.
- **OTP rendering** (`Otp`). `generateOtp` becomes `GenerateOtp(draw)`. The random draw is
  the integer `floor(Math.random() * 900000)`, which lies in [0, 900000). `toString()` is a
  decimal renderer, and `ParseDecimal` is a reference reading used for the round trips.
- **Owner-scoped journal store** (`JournalStore`, `JournalService`, `JournalProperties`).
  The `journals` table is a map from id to entry, with the next AUTO_INCREMENT id and a
  database clock. The clock is a counter that advances with every write that stamps a row.
  Every statement on an existing entry is guarded by `id AND user_id`. The listing enumerates the caller's rows and
  sorts them by `pinned DESC, created_at DESC`.
- **Dashboard helpers** (`Dashboard`). These are the mood table and `getMoodEmoji`, the
  search and mood filter over the fetched list, the 150-character preview and the
  create-form guard.

Foreign calls enter as parameters:

- `Crypto` is a record of function values. It stands for `bcrypt.hash`, `bcrypt.compare`
  and Joi's email-syntax check.
- `HashSound` is the one assumption made about bcrypt: a password matches its own hash.
  Only the lifecycle lemmas assume it.
- A token is its record of claims (`Claims`), including the 24-hour lifetime.
- The random OTP draw, the bcrypt salt and whether the OTP mail was delivered are
  arguments of `Register`.
- The caller id of a journal request is the one the bearer-token middleware attached. It
  is trusted.

Notes on what the code does:

- `adminLogin` answers a missing user with 403 "Not an admin user".
- `getUserById` answers 404 for an unknown id, while `login` and `verifyOtp` answer 400 for
  an unknown email. They are separate errors here: `UserIdNotFound` and `UserNotFound`.
- `register` writes the user row before it sends the mail. If the mail fails, the reply is
  500 but the row stays. The `Register` contract states this.
- Joi's length rules count UTF-16 code units, as JavaScript's `length` does. The model
  counts them with `Utf16Length`, so a character outside the Basic Multilingual Plane
  counts twice.
- The `journals` DDL in backend/setup-database.js has no `pinned` column, but
  backend/models/Journal.js reads and flips one. The model treats it as a boolean column
  that defaults to false.

## Model

| member | source | states |
|---|---|---|
| `Otp.ToDecimal` | backend/utils/otpUtil.js:4 | the rendering of a number is a non-empty digit string whose first digit is '0' only for zero |
| `Otp.ParseOfToDecimal` | backend/utils/otpUtil.js:4 | reading back the rendering of n gives n (toString round trip) |
| `Otp.ToDecimalOfParse` | backend/utils/otpUtil.js:4 | rendering the value of a canonical digit string gives the string back (the other direction) |
| `Otp.DecimalLength` | backend/utils/otpUtil.js:4 | a number in [10^(k-1), 10^k) renders to exactly k digits |
| `Otp.GenerateOtp` | backend/utils/otpUtil.js:3-5 | for every draw in [0, 900000) the code has 6 characters, all digits, the first non-zero, and its value is 100000 + draw, so it lies in [100000, 999999] and passes the `length(6)` OTP rule |
| `Otp.EveryCodeIsGenerated` | backend/utils/otpUtil.js:4 | every 6-digit string without a leading zero is produced by exactly one draw, the one equal to its value minus 100000 |
| `UserStore.FindUserByEmail` | backend/models/User.js:11-14 | returns a row exactly when some row has that email; the row returned has that email; on a valid table it is the unique row with that email |
| `UserStore.FindUserById` | backend/models/User.js:16-19 | returns nothing for an unknown id; otherwise the row with that id (unique on a valid table) |
| `UserStore.FindAllUsers` | backend/models/User.js:21-24 | one projected entry per row, in table order, carrying id, name, email and is_verified only |
| `UserStore.CreateUser` | backend/models/User.js:3-9 | fails exactly when the email is taken (UNIQUE key); otherwise appends one row with the next id, the given name, email, hash and otp, unverified and not admin |
| `UserStore.UpdateUserOtp` | backend/models/User.js:26-28 | the matching user gets the new otp; no other field of any row changes and other users are untouched |
| `UserStore.VerifyUserOtp` | backend/models/User.js:30-32 | the matching user becomes verified with a NULL otp; no other field changes and other users are untouched |
| `UserStore.UpdateKeepsKeys` | backend/models/User.js:26-32 | an update by email that keeps ids and emails keeps the table valid and keeps its set of emails |
| `UserStore.CreateUserThenFind` | backend/models/User.js:3-19 | on a valid table without the email, the insert succeeds, keeps the table valid, and both lookups then return the new row |
| `UserStore.VerifyUserOtpThenFind` | backend/models/User.js:30-32 | after verification the lookup by email returns the same user, now verified with no code, and the table stays valid |
| `AuthService.RegisterViolation` | backend/controllers/authController.js:8-12 | the first failing key in schema order: a name of 2..100 UTF-16 code units, then a present well-formed email, then a password of at least 6 code units; none exactly when all hold |
| `AuthService.OtpViolation` | backend/controllers/authController.js:19-22 | the OTP body passes exactly when the email is well-formed and the code is 6 UTF-16 code units long; a bad email is reported first, and otherwise a bad code is reported as the `otp` key |
| `AuthService.Utf16Length` | backend/controllers/authController.js:8-22 | the length Joi measures lies between the character count and twice it; it equals the character count exactly when every character is in the Basic Multilingual Plane, and twice it exactly when none is |
| `AuthService.LengthsCountCodeUnits` | backend/controllers/authController.js:9-21 | one emoji passes `min(2)` for a name; three emoji pass `min(6)` for a password and `length(6)` for a code; five digits and an emoji are not a 6-unit code |
| `AuthService.LoginViolation` | backend/controllers/authController.js:14-17 | the login body passes exactly when the email is well-formed and the password is present and non-empty; a bad email is reported first, and otherwise a missing or empty password is reported as the `password` key |
| `AuthService.Register` | backend/controllers/authController.js:25-43 | a validation failure, then "Email already registered" whether or not the holder is verified, both with the table unchanged; success exactly when the input is valid, the email is new and the mail went out; a valid request with a new email always appends exactly one unverified row holding the hashed password and the generated code, also when the mail then fails with 500; success carries no token |
| `AuthService.VerifyOtp` | backend/controllers/authController.js:46-61 | validation, then "User not found" for an unknown email, then "Invalid OTP" unless the stored code equals the submitted one exactly; every failure leaves the table unchanged; success is the `verifyUserOtp` update |
| `AuthService.Login` | backend/controllers/authController.js:64-88 | validation, then 400 "User not found", then 403 for an unverified user whatever the password, then 400 for a bad password; success returns claims {id, email} with a 1-day lifetime and the user {id, name, email} |
| `AuthService.AdminLogin` | backend/controllers/authController.js:91-128 | validation, then 403 for a missing or non-admin user, then 403 when unverified, then 400 for a bad password; on success the claims and the user both carry is_admin: true |
| `AuthService.GetUserById` | backend/controllers/authController.js:131-149 | 404 exactly when no user has the id; otherwise the public projection (id, name, email, is_verified) of that user |
| `AuthService.GetAllUsers` | backend/controllers/authController.js:151-166 | one public projection per user row, in order, without password or otp |
| `AuthLifecycle.RegisterAgainIsRefused` | backend/controllers/authController.js:31-32 | once a registration has written its row, registering that email again is refused and changes nothing, before and after any OTP verification |
| `AuthLifecycle.OtpIsOneShot` | backend/controllers/authController.js:54-56 | after a successful verification the same request is answered "Invalid OTP" and changes nothing |
| `AuthLifecycle.LoginImpliesVerified` | backend/controllers/authController.js:70-77 | every successful ordinary or admin login belongs to a verified user (an admin for admin login) whose hash matches the password, and the token names that user |
| `AuthLifecycle.GeneratedCodeHasSixUnits` | backend/controllers/authController.js:19-22 | every code `generateOtp` can produce, and the code "000000", is exactly 6 code units long and so passes the OTP schema's `length(6)` rule |
| `AuthLifecycle.AccountLifecycle` | backend/test/api.test.js:34-150 | for a fresh email: registration succeeds; a second one is refused; "000000" is an invalid code; login is 403 and admin login 403 before verification; the generated code verifies once; then login returns a token for the new id, while admin login stays refused |
| `AuthLifecycle.RegisterEvolves` | backend/controllers/authController.js:25-43 | registration keeps the table valid; existing rows keep id, name, email, hash, admin flag and verification; the only possible new row is unverified and not an admin |
| `AuthLifecycle.VerifyOtpEvolves` | backend/controllers/authController.js:46-61 | OTP verification keeps the table valid, adds no row, changes no id, name, email, hash or admin flag, and never clears a verification |
| `AuthLifecycle.RequestsKeepTableInvariants` | backend/controllers/authController.js:25-61 | whichever table-changing request arrives, the table stays valid and evolves only as above, so no endpoint grants admin rights or revokes a verification |
| `JournalStore.CreateJournal` | backend/models/Journal.js:3-9 | adds one unpinned entry with the given owner, title, content and mood under the next id; on a valid store the id is fresh, the store stays valid and the caller owns the entry |
| `JournalStore.FindJournalById` | backend/models/Journal.js:20-26 | returns the entry exactly when both id and owner match |
| `JournalStore.UpdateJournal` | backend/models/Journal.js:28-34 | without a matching (id, owner) row nothing changes; otherwise only that row's title, content, mood and modification time change; an update that changes no value changes nothing, and on a valid store one that does change a value stamps the current time |
| `JournalStore.DeleteJournal` | backend/models/Journal.js:36-42 | removes exactly the matching (id, owner) row; with a mismatched owner it changes nothing; surviving rows are unchanged |
| `JournalStore.TogglePinJournal` | backend/models/Journal.js:44-50 | flips the pin of exactly the matching row, sets its modification time to the current time, and changes nothing else |
| `JournalStore.InsertKeepsOrder` | backend/models/Journal.js:14 | inserting into a sequence in `pinned DESC, created_at DESC` order keeps it in that order |
| `JournalStore.SortForListing` | backend/models/Journal.js:14 | the sort result is a permutation of its input in `pinned DESC, created_at DESC` order |
| `JournalStore.SortedOwnedRows` | backend/models/Journal.js:12-17 | the sorted rows are all owned by the caller and present in the store; on a valid store each owned row occurs exactly once |
| `JournalStore.FindJournalsByUser` | backend/models/Journal.js:12-18 | only the caller's entries, each of them exactly once on a valid store, in `pinned DESC, created_at DESC` order |
| `JournalService.CreateJournal` | backend/controllers/journalController.js:3-20 | a missing or empty title or content gives 400 before any storage call, with the store unchanged; otherwise the request succeeds, one entry owned by the caller is added under the returned new id and nothing else changes |
| `JournalService.GetAllJournals` | backend/controllers/journalController.js:22-31 | only entries the caller owns, each owned entry exactly once on a valid store, in listing order |
| `JournalService.GetJournalById` | backend/controllers/journalController.js:33-46 | 404 exactly when the id is absent or owned by someone else; otherwise the caller's entry |
| `JournalService.UpdateJournal` | backend/controllers/journalController.js:48-68 | 400 for a bad body even on a foreign id, then 404 when the id is absent or foreign, both with the store unchanged; success overwrites title, content and mood of that entry only, keeping its id, owner, pin and creation time; its modification time moves to the current time when a value changes and stays otherwise |
| `JournalService.DeleteJournal` | backend/controllers/journalController.js:70-85 | 404 with the store unchanged when the id is absent or foreign; otherwise exactly that entry is removed |
| `JournalService.TogglePinJournal` | backend/controllers/journalController.js:87-102 | 404 with the store unchanged when the id is absent or foreign; otherwise that entry's pin flips, its modification time becomes the current time, none of its other fields changes, and no other entry changes |
| `JournalProperties.CallerOnlyTouchesOwnEntries` | backend/models/Journal.js:28-49 | whatever mutation a caller requests, the store stays valid and no entry of another user is changed, removed or added |
| `JournalProperties.ForeignEntryIsNotFound` | backend/controllers/journalController.js:38-95 | another user's entry and a missing id get the same 404 on get, update, delete and toggle, and none of them changes the store |
| `JournalProperties.TogglePinTwice` | backend/models/Journal.js:44-49 | toggling twice restores the entry except its modification time, and leaves all other entries as they were |
| `JournalProperties.ListingOrder` | backend/models/Journal.js:14 | on a valid store pinned entries come before unpinned ones, and within a group strictly newer entries come first |
| `JournalProperties.ListingOfOnlyEntry` | backend/models/Journal.js:12-17 | a caller who owns exactly one entry sees exactly that entry |
| `JournalProperties.NothingOwnedBelow` | backend/models/Journal.js:12-17 | a caller who owns no entry has no rows below any id bound |
| `JournalProperties.ListingOfNothing` | backend/models/Journal.js:12-17 | a caller who owns nothing sees an empty listing |
| `JournalProperties.CreateShowsOnlyEntry` | backend/controllers/journalController.js:3-31 | for a caller without entries, a valid create answers the next id and the caller's listing is exactly the new unpinned entry, stamped with the current time |
| `JournalProperties.PinUnpinDelete` | backend/controllers/journalController.js:70-102 | with one unpinned entry of the caller's, a toggle pins it, a second unpins it, and a delete removes it so that it is 404 and the listing is empty |
| `JournalProperties.JournalLifecycle` | backend/controllers/journalController.js:3-102 | for a caller without entries: the listing is empty; create returns the next id; the listing shows that one unpinned entry; two toggles pin and then unpin it; delete succeeds, after which the entry is 404 and the listing is empty |
| `Dashboard.MoodEmoji` | frontend/src/pages/Dashboard.jsx:157-160 | the result is non-empty exactly when the label is in the mood table, and it is then the emoji of a row with that label |
| `Dashboard.MoodTable` | frontend/src/pages/Dashboard.jsx:24-33 | each of the eight labels maps to its own emoji |
| `Dashboard.LowerCharSpec` | frontend/src/pages/Dashboard.jsx:165-166 | lower-casing one character yields no capital A-Z, turns a capital into the small letter of the same alphabet position, and keeps any other character |
| `Dashboard.ToLower` | frontend/src/pages/Dashboard.jsx:165-166 | lower-casing keeps the length, leaves no capital A-Z, turns each capital into the small letter at the same alphabet position, and keeps every other character |
| `Dashboard.ToLowerIdempotent` | frontend/src/pages/Dashboard.jsx:165-166 | lower-casing twice is lower-casing once |
| `Dashboard.FilterJournals` | frontend/src/pages/Dashboard.jsx:163-171 | an entry is kept exactly when it is in the input and matches both the search and the mood filter; with a mood filter every kept entry has that exact mood; with a search term every kept entry's lower-cased title or content contains the lower-cased term; each kept entry occurs as often as in the input and a dropped one not at all |
| `Dashboard.FilterIsSubsequence` | frontend/src/pages/Dashboard.jsx:163-171 | the filtered list is an order-preserving subsequence of the fetched list |
| `Dashboard.FilterWithoutCriteria` | frontend/src/pages/Dashboard.jsx:164-168 | with an empty search term and an empty mood filter the filter is the identity |
| `Dashboard.FilterIgnoresTermCase` | frontend/src/pages/Dashboard.jsx:164-166 | two search terms that lower-case alike select the same entries |
| `Dashboard.FilterKeepsListingOrder` | frontend/src/pages/Dashboard.jsx:163-171 | filtering a list in listing order leaves it in listing order |
| `Dashboard.DashboardShowsOnlyOwnEntries` | frontend/src/pages/Dashboard.jsx:39-46 | what the dashboard shows after filtering the fetched listing holds only the caller's entries, pinned first and newest first |
| `Dashboard.Preview` | frontend/src/pages/Dashboard.jsx:393-395 | content of at most 150 characters is shown unchanged; longer content is shown as its first 150 characters followed by "...", 153 characters in all |
| `Dashboard.PreviewIdempotent` | frontend/src/pages/Dashboard.jsx:393-395 | previewing a preview changes nothing |
| `Dashboard.CheckCreateForm` | frontend/src/pages/Dashboard.jsx:48-58 | the form is submitted exactly when title, content and mood are all non-empty; a missing title or content is reported before a missing mood |
| `Dashboard.SubmittedFormIsCreated` | frontend/src/pages/Dashboard.jsx:50-58 | a form the dashboard submits always passes the server's title and content check |

## Left out

- bcrypt, JWT signing and Joi's email syntax are foreign library calls. They are function values in `Crypto`, and a token is its claim record. Signatures, secrets and expiry checking are not modelled.
- The bearer-token middleware (backend/middleware/authMiddleware.js) is not part of this model. The caller id of a journal request and the authentication required by the user fetchers are taken as given.
- `sendOtpEmail` and nodemailer are I/O. Whether delivery succeeded is a boolean argument of `Register`, and a failure is the generic `InternalError`.
- `Math.random` is floating point. The draw is an integer argument in [0, 900000). The float rounding of `100000 + Math.random() * 900000` is not modelled.
- Storage failures other than the duplicate email are not modelled. In the source each handler's `catch` maps them to 500.
- The check-then-act gap between `findJournalById` and the following statement in update, delete and toggle is a concurrency concern. Each request is one atomic step here.
- MySQL semantics beyond the statements themselves are not modelled: the case- and trailing-space-insensitive collation of `email = ?`, the VARCHAR length limits, and `TIMESTAMP` resolution. Emails compare exactly, and `created_at` values are distinct clock ticks, so the listing never has ties. If ties did occur, the model lists them in descending id order, where the database leaves their order unspecified.
- Route ids (`req.params.id` in `getUserById` and the journal by-id handlers) are strings
  that MySQL converts to a number in `WHERE id = ?`, so "01" addresses row 1. The handlers
  take the id after that conversion, as an integer. The conversion itself is not modelled.
- The mysql2 driver refuses `undefined` bind parameters. So a create or update request without a `mood` field may fail in the driver. The model stores such a request's mood as NULL.
- Request bodies are records of optional strings. Joi's refusal of unknown keys and JavaScript values of other types (a number as a title, say) are not modelled.
- User-visible message text, Joi's detail message and the JSON reply shapes are replaced by error constructors and `Status`.
- `updateUserOtp` is modelled, but no handler calls it.
- Seeding of the admin user and the test user is out of scope. So is the `is_admin` provisioning: no handler sets `is_admin`, and `CreateUser` writes it as false.
- Dashboard.ToLower: lower-cases only A-Z, whereas JavaScript's `toLowerCase` folds all of Unicode.
- Dashboard.LowerCharSpec: folds only A-Z and keeps every other character, so 'É' stays 'É', whereas `toLowerCase` folds all of Unicode ('É' becomes 'é').
- Dashboard.Preview: counts Unicode scalar values, whereas JavaScript's `length` and `substring` count UTF-16 code units.
- The rest of the frontend is out of scope: PDF export, the rotating quotes, the admin dashboard, the other pages, the auth context and the axios client.

=== FILE: auth_lifecycle.dfy ===
/** Properties of the account lifecycle that span several requests:
    register -> verify OTP -> login. */
module AuthLifecycle {
  import opened Wrappers
  import opened UserStore
  import opened Otp
  import opened AuthService

  /** Once a registration has written its row, registering the same email again is refused
      with "Email already registered" and adds nothing, whether or not the first user has
      verified in between. */
  lemma RegisterAgainIsRefused(
    c: Crypto, t: UserTable, first: RegisterBody, draw: int, salt: string, mailSent: bool,
    verify: OtpBody, again: RegisterBody, draw2: int, salt2: string, mailSent2: bool)
    requires 0 <= draw < CodeRange && 0 <= draw2 < CodeRange
    requires Register(c, t, first, draw, salt, mailSent).table != t
    requires RegisterViolation(c, again).None? && again.email == first.email
    ensures var t1 := Register(c, t, first, draw, salt, mailSent).table;
      && Register(c, t1, again, draw2, salt2, mailSent2) == Step(t1, Err(EmailAlreadyRegistered))
      && var t2 := VerifyOtp(c, t1, verify).table;
         Register(c, t2, again, draw2, salt2, mailSent2) == Step(t2, Err(EmailAlreadyRegistered))
  {
  }

  /** The requests that can change the user table. Login, admin login and the user
      fetchers only read it. */
  datatype TableRequest =
    | RegisterReq(registration: RegisterBody, draw: int, salt: string, mailSent: bool)
    | VerifyOtpReq(otpForm: OtpBody)

  /** The table a request leaves behind. */
  function TableAfter(c: Crypto, t: UserTable, req: TableRequest): UserTable
    requires req.RegisterReq? ==> 0 <= req.draw < CodeRange
  {
    match req
    case RegisterReq(b, draw, salt, mailSent) => Register(c, t, b, draw, salt, mailSent).table
    case VerifyOtpReq(b) => VerifyOtp(c, t, b).table
  }

  /** How a table may evolve: rows are never removed, and they keep their id, name, email,
      password hash and admin flag; verification is never undone; every new row is an
      unverified non-admin. */
  ghost predicate Evolves(t: UserTable, t': UserTable)
  {
    && |t.rows| <= |t'.rows|
    && (forall i :: 0 <= i < |t.rows| ==>
          && t'.rows[i].id == t.rows[i].id && t'.rows[i].name == t.rows[i].name
          && t'.rows[i].email == t.rows[i].email && t'.rows[i].password == t.rows[i].password
          && t'.rows[i].isAdmin == t.rows[i].isAdmin
          && (t.rows[i].isVerified ==> t'.rows[i].isVerified))
    && (forall i :: |t.rows| <= i < |t'.rows| ==> !t'.rows[i].isVerified && !t'.rows[i].isAdmin)
  }

  /** `register` evolves the table: at most one new row, unverified and not an admin. */
  lemma RegisterEvolves(c: Crypto, t: UserTable, b: RegisterBody, draw: int, salt: string, mailSent: bool)
    requires Valid(t) && 0 <= draw < CodeRange
    ensures Valid(Register(c, t, b, draw, salt, mailSent).table)
    ensures Evolves(t, Register(c, t, b, draw, salt, mailSent).table)
  {
    var t' := Register(c, t, b, draw, salt, mailSent).table;
    if t' != t {
      var row := UserRow(t.nextId, b.name.value, b.email.value, c.hash(b.password.value, salt), Some(GenerateOtp(draw)), false, false);
      assert t'.rows == t.rows + [row];
      CreateUserThenFind(t, b.name.value, b.email.value, c.hash(b.password.value, salt), GenerateOtp(draw));
      assert t' == CreateUser(t, b.name.value, b.email.value, c.hash(b.password.value, salt), GenerateOtp(draw)).value;
    }
  }

  /** `verifyOtp` evolves the table: it can only set a verification flag. */
  lemma VerifyOtpEvolves(c: Crypto, t: UserTable, b: OtpBody)
    requires Valid(t)
    ensures Valid(VerifyOtp(c, t, b).table)
    ensures Evolves(t, VerifyOtp(c, t, b).table)
  {
    var r := VerifyOtp(c, t, b);
    if r.reply.Ok? {
      VerifyUserOtpThenFind(t, b.email.value);
    }
  }

  /** Every request keeps the table's constraints and evolves it as above, so no public
      endpoint grants admin rights or revokes a verification. */
  lemma RequestsKeepTableInvariants(c: Crypto, t: UserTable, req: TableRequest)
    requires Valid(t)
    requires req.RegisterReq? ==> 0 <= req.draw < CodeRange
    ensures Valid(TableAfter(c, t, req))
    ensures Evolves(t, TableAfter(c, t, req))
  {
    match req
    case RegisterReq(b, draw, salt, mailSent) => RegisterEvolves(c, t, b, draw, salt, mailSent);
    case VerifyOtpReq(b) => VerifyOtpEvolves(c, t, b);
  }

  /** A code is accepted at most once: after a successful verification the stored code is
      NULL, so submitting the same body again is answered "Invalid OTP". */
  lemma OtpIsOneShot(c: Crypto, t: UserTable, b: OtpBody)
    requires Valid(t)
    requires VerifyOtp(c, t, b).reply.Ok?
    ensures var t1 := VerifyOtp(c, t, b).table;
      && Valid(t1)
      && VerifyOtp(c, t1, b) == Step(t1, Err(InvalidOtp))
  {
  }

  /** Every successful login, ordinary or admin, belongs to a verified user whose stored hash
      matches the submitted password, and the token names that user. */
  lemma LoginImpliesVerified(c: Crypto, t: UserTable, b: LoginBody, admin: bool)
    requires var r := if admin then AdminLogin(c, t, b) else Login(c, t, b); r.Ok?
    ensures var r := if admin then AdminLogin(c, t, b) else Login(c, t, b);
      exists u :: u in t.rows && u.email == b.email.value && u.isVerified
        && c.matches(b.password.value, u.password)
        && (admin ==> u.isAdmin)
        && r.value.token == Claims(u.id, u.email, admin, TokenLifetime)
  {
  }

  /** Every generated code, and the all-zero code, meets the `length(6)` rule of the OTP
      schema: digits are single code units. */
  lemma GeneratedCodeHasSixUnits(draw: int)
    requires 0 <= draw < CodeRange
    ensures OtpOk(Some(GenerateOtp(draw)))
    ensures OtpOk(Some("000000"))
  {
    var code := GenerateOtp(draw);
    assert forall i :: 0 <= i < |code| ==> code[i] < '\U{10000}';
  }

  /** The lifecycle of a fresh account: registration succeeds and a second one is refused;
      a wrong code, a login and an admin login before verification are refused; the
      generated code verifies the account exactly once; then the password logs in with a
      token naming the new user, while admin login stays refused. */
  lemma AccountLifecycle(
    c: Crypto, t: UserTable, name: string, email: string, password: string, draw: int, salt: string)
    requires HashSound(c) && Valid(t)
    requires 0 <= draw < CodeRange
    requires RegisterViolation(c, RegisterBody(Some(name), Some(email), Some(password))).None?
    requires !HasEmail(t, email)
    ensures var reg := RegisterBody(Some(name), Some(email), Some(password));
      var creds := LoginBody(Some(email), Some(password));
      var t1 := Register(c, t, reg, draw, salt, true).table;
      var good := OtpBody(Some(email), Some(GenerateOtp(draw)));
      var t2 := VerifyOtp(c, t1, good).table;
      && Register(c, t, reg, draw, salt, true).reply == Ok(())
      && Register(c, t1, reg, draw, salt, true) == Step(t1, Err(EmailAlreadyRegistered))
      && VerifyOtp(c, t1, OtpBody(Some(email), Some("000000"))) == Step(t1, Err(InvalidOtp))
      && Login(c, t1, creds) == Err(AccountNotVerified)
      && AdminLogin(c, t1, creds) == Err(NotAnAdminUser)
      && VerifyOtp(c, t1, good).reply == Ok(())
      && VerifyOtp(c, t2, good) == Step(t2, Err(InvalidOtp))
      && Login(c, t2, creds) == Ok(Session(Claims(t.nextId, email, false, TokenLifetime),
                                           SessionUser(t.nextId, name, email, false)))
      && AdminLogin(c, t2, creds) == Err(NotAnAdminUser)
  {
    GeneratedCodeHasSixUnits(draw);
    var reg := RegisterBody(Some(name), Some(email), Some(password));
    var hashed := c.hash(password, salt);
    var code := GenerateOtp(draw);
    var row := UserRow(t.nextId, name, email, hashed, Some(code), false, false);
    CreateUserThenFind(t, name, email, hashed, code);
    var t1 := Register(c, t, reg, draw, salt, true).table;
    assert t1 == CreateUser(t, name, email, hashed, code).value;
    assert FindUserByEmail(t1, email) == Some(row);
    assert "000000" != code by { assert code[0] != '0'; }
    VerifyUserOtpThenFind(t1, email);
    var t2 := VerifyOtp(c, t1, OtpBody(Some(email), Some(code))).table;
    assert t2 == VerifyUserOtp(t1, email);
    assert FindUserByEmail(t2, email) == Some(row.(isVerified := true, otp := None));
  }
}

=== FILE: auth_service.dfy ===
/** The request handlers of backend/controllers/authController.js as transitions over the
    user table. Each handler decides its outcome through a fixed chain of guards; every
    failure except an internal error leaves the table as it was. */
module AuthService {
  import opened Wrappers
  import opened UserStore
  import opened Otp

  /** The foreign primitives the controller calls: `bcrypt.hash(plain, 10)` with its random
      salt, `bcrypt.compare(plain, hash)` and Joi's `string().email()` syntax check. */
  datatype Crypto = Crypto(
    hash: (string, string) -> string,
    matches: (string, string) -> bool,
    validEmail: string -> bool)

  /** The one fact about bcrypt the lifecycle relies on: a password matches its own hash. */
  ghost predicate HashSound(c: Crypto) {
    forall plain, salt :: c.matches(plain, c.hash(plain, salt))
  }

  /** `jwt.sign` validity (`expiresIn: '1d'`), in seconds. */
  const TokenLifetime: nat := 86400

  /** The signed claims of a token. `adminClaim` records whether `is_admin: true` is present. */
  datatype Claims = Claims(id: nat, email: string, adminClaim: bool, expiresIn: nat)

  /** The `user` object of a login reply. `adminFlag` records whether `is_admin: true` is present. */
  datatype SessionUser = SessionUser(id: nat, name: string, email: string, adminFlag: bool)

  datatype Session = Session(token: Claims, user: SessionUser)

  /** The request field a Joi schema reports first. */
  datatype Field = NameField | EmailField | PasswordField | OtpField

  datatype AuthError =
    | Invalid(field: Field)
    | EmailAlreadyRegistered
    | UserNotFound
    | InvalidOtp
    | AccountNotVerified
    | InvalidCredentials
    | NotAnAdminUser
    | UserIdNotFound
    | InternalError

  /** The HTTP status each failure is answered with. */
  function Status(e: AuthError): (code: nat)
    ensures code == 403 <==> e == AccountNotVerified || e == NotAnAdminUser
    ensures code == 404 <==> e == UserIdNotFound
    ensures code == 500 <==> e == InternalError
    ensures code in {400, 403, 404, 500}
  {
    match e
    case AccountNotVerified => 403
    case NotAnAdminUser => 403
    case UserIdNotFound => 404
    case InternalError => 500
    case _ => 400
  }

  /** A handler's reply together with the table it leaves behind. */
  datatype Step<+T> = Step(table: UserTable, reply: Result<T, AuthError>)

  datatype RegisterBody = RegisterBody(name: Option<string>, email: Option<string>, password: Option<string>)
  datatype OtpBody = OtpBody(email: Option<string>, otp: Option<string>)
  datatype LoginBody = LoginBody(email: Option<string>, password: Option<string>)

  /** JavaScript's `length`: the number of UTF-16 code units, two for a character outside
      the Basic Multilingual Plane. Joi's `min`, `max` and `length` rules count these. */
  function Utf16Length(s: string): (n: nat)
    ensures |s| <= n <= 2 * |s|
    ensures n == |s| <==> forall i :: 0 <= i < |s| ==> s[i] < '\U{10000}'
    ensures n == 2 * |s| <==> forall i :: 0 <= i < |s| ==> s[i] >= '\U{10000}'
  {
    if |s| == 0 then 0
    else
      var rest := Utf16Length(s[1..]);
      assert forall i :: 1 <= i < |s| ==> s[i] == s[1..][i - 1];
      (if s[0] < '\U{10000}' then 1 else 2) + rest
  }

  // Joi's `string()` refuses the empty string and a missing `required()` key alike.
  predicate NameOk(name: Option<string>) { name.Some? && 2 <= Utf16Length(name.value) <= 100 }
  predicate EmailOk(c: Crypto, email: Option<string>) { email.Some? && email.value != "" && c.validEmail(email.value) }
  predicate NewPasswordOk(password: Option<string>) { password.Some? && Utf16Length(password.value) >= 6 }
  predicate PasswordPresent(password: Option<string>) { password.Some? && password.value != "" }
  predicate OtpOk(otp: Option<string>) { otp.Some? && Utf16Length(otp.value) == CodeLength }

  /** Lengths are code units, not characters: one emoji is a long enough name, and three
      emoji are a long enough password and a six-unit code. */
  lemma LengthsCountCodeUnits()
    ensures NameOk(Some("\U{1F60A}"))
    ensures NewPasswordOk(Some("\U{1F60A}\U{1F622}\U{1F620}"))
    ensures OtpOk(Some("\U{1F60A}\U{1F622}\U{1F620}"))
    ensures !OtpOk(Some("12345\U{1F60A}"))
  {
  }

  /** `registerSchema.validate`: the first key, in schema order, whose rule fails. */
  function RegisterViolation(c: Crypto, b: RegisterBody): (r: Option<Field>)
    ensures r.None? <==> NameOk(b.name) && EmailOk(c, b.email) && NewPasswordOk(b.password)
    ensures r == Some(NameField) <==> !NameOk(b.name)
    ensures r == Some(EmailField) <==> NameOk(b.name) && !EmailOk(c, b.email)
    ensures r == Some(PasswordField) <==> NameOk(b.name) && EmailOk(c, b.email) && !NewPasswordOk(b.password)
  {
    if !NameOk(b.name) then Some(NameField)
    else if !EmailOk(c, b.email) then Some(EmailField)
    else if !NewPasswordOk(b.password) then Some(PasswordField)
    else None
  }

  /** `otpSchema.validate`. */
  function OtpViolation(c: Crypto, b: OtpBody): (r: Option<Field>)
    ensures r.None? <==> EmailOk(c, b.email) && OtpOk(b.otp)
    ensures r == Some(EmailField) <==> !EmailOk(c, b.email)
    ensures r == Some(OtpField) <==> EmailOk(c, b.email) && !OtpOk(b.otp)
  {
    if !EmailOk(c, b.email) then Some(EmailField)
    else if !OtpOk(b.otp) then Some(OtpField)
    else None
  }

  /** `loginSchema.validate`, shared by `login` and `adminLogin`. */
  function LoginViolation(c: Crypto, b: LoginBody): (r: Option<Field>)
    ensures r.None? <==> EmailOk(c, b.email) && PasswordPresent(b.password)
    ensures r == Some(EmailField) <==> !EmailOk(c, b.email)
    ensures r == Some(PasswordField) <==> EmailOk(c, b.email) && !PasswordPresent(b.password)
  {
    if !EmailOk(c, b.email) then Some(EmailField)
    else if !PasswordPresent(b.password) then Some(PasswordField)
    else None
  }

  /** `register`. `draw` and `salt` stand for the random OTP draw and bcrypt salt;
      `mailSent` for whether `sendOtpEmail` resolved. The user row is written before the
      mail is sent, so a mail failure answers 500 but keeps the new row. */
  function Register(c: Crypto, t: UserTable, b: RegisterBody, draw: int, salt: string, mailSent: bool)
    : (r: Step<()>)
    requires 0 <= draw < CodeRange
    ensures RegisterViolation(c, b).Some? ==> r == Step(t, Err(Invalid(RegisterViolation(c, b).value)))
    ensures RegisterViolation(c, b).None? && HasEmail(t, b.email.value) ==> r == Step(t, Err(EmailAlreadyRegistered))
    ensures r.reply.Ok? <==> RegisterViolation(c, b).None? && !HasEmail(t, b.email.value) && mailSent
    ensures r.reply.Err? && r.reply.error != InternalError ==> r.table == t
    ensures r.table != t ==>
      && RegisterViolation(c, b).None? && !HasEmail(t, b.email.value)
      && r.table.rows == t.rows + [UserRow(t.nextId, b.name.value, b.email.value,
                                           c.hash(b.password.value, salt), Some(GenerateOtp(draw)), false, false)]
      && r.table.nextId == t.nextId + 1
    ensures r.reply.Ok? ==> r.table != t
    ensures RegisterViolation(c, b).None? && !HasEmail(t, b.email.value) ==> r.table != t
    ensures !mailSent && RegisterViolation(c, b).None? && !HasEmail(t, b.email.value) ==> r.reply == Err(InternalError)
  {
    match RegisterViolation(c, b)
    case Some(f) => Step(t, Err(Invalid(f)))
    case None =>
      var email := b.email.value;
      if FindUserByEmail(t, email).Some? then Step(t, Err(EmailAlreadyRegistered))
      else
        var hashed := c.hash(b.password.value, salt);
        match CreateUser(t, b.name.value, email, hashed, GenerateOtp(draw))
        case Err(_) => Step(t, Err(InternalError))
        case Ok(t') => Step(t', if mailSent then Ok(()) else Err(InternalError))
  }

  /** `verifyOtp`: validation, then existence, then an exact string comparison with the
      stored code (a NULL code never matches). */
  function VerifyOtp(c: Crypto, t: UserTable, b: OtpBody): (r: Step<()>)
    ensures r.reply.Err? ==> r.table == t
    ensures OtpViolation(c, b).Some? ==> r.reply == Err(Invalid(OtpViolation(c, b).value))
    ensures OtpViolation(c, b).None? && !HasEmail(t, b.email.value) ==> r.reply == Err(UserNotFound)
    ensures OtpViolation(c, b).None? && HasEmail(t, b.email.value) ==>
      (r.reply.Ok? <==> FindUserByEmail(t, b.email.value).value.otp == b.otp)
    ensures OtpViolation(c, b).None? && HasEmail(t, b.email.value) && r.reply.Err? ==> r.reply == Err(InvalidOtp)
    ensures r.reply.Ok? ==> r.table == VerifyUserOtp(t, b.email.value)
  {
    match OtpViolation(c, b)
    case Some(f) => Step(t, Err(Invalid(f)))
    case None =>
      match FindUserByEmail(t, b.email.value)
      case None => Step(t, Err(UserNotFound))
      case Some(u) =>
        if u.otp != b.otp then Step(t, Err(InvalidOtp))
        else Step(VerifyUserOtp(t, b.email.value), Ok(()))
  }

  /** `login`: validation, then existence (400), then verification (403), then the
      password (400). Login never changes the table. */
  function Login(c: Crypto, t: UserTable, b: LoginBody): (r: Result<Session, AuthError>)
    ensures LoginViolation(c, b).Some? ==> r == Err(Invalid(LoginViolation(c, b).value))
    ensures LoginViolation(c, b).None? && !HasEmail(t, b.email.value) ==> r == Err(UserNotFound)
    ensures LoginViolation(c, b).None? && HasEmail(t, b.email.value) ==>
      var u := FindUserByEmail(t, b.email.value).value;
      && (!u.isVerified ==> r == Err(AccountNotVerified))
      && (u.isVerified && !c.matches(b.password.value, u.password) ==> r == Err(InvalidCredentials))
      && (u.isVerified && c.matches(b.password.value, u.password) ==>
            r == Ok(Session(Claims(u.id, u.email, false, TokenLifetime), SessionUser(u.id, u.name, u.email, false))))
  {
    match LoginViolation(c, b)
    case Some(f) => Err(Invalid(f))
    case None =>
      match FindUserByEmail(t, b.email.value)
      case None => Err(UserNotFound)
      case Some(u) =>
        if !u.isVerified then Err(AccountNotVerified)
        else if !c.matches(b.password.value, u.password) then Err(InvalidCredentials)
        else Ok(Session(Claims(u.id, u.email, false, TokenLifetime), SessionUser(u.id, u.name, u.email, false)))
  }

  /** `adminLogin`: validation, then "missing or not an admin" (403), then verification
      (403), then the password (400). The token and the reply carry `is_admin: true`. */
  function AdminLogin(c: Crypto, t: UserTable, b: LoginBody): (r: Result<Session, AuthError>)
    ensures LoginViolation(c, b).Some? ==> r == Err(Invalid(LoginViolation(c, b).value))
    ensures LoginViolation(c, b).None? && !HasEmail(t, b.email.value) ==> r == Err(NotAnAdminUser)
    ensures LoginViolation(c, b).None? && HasEmail(t, b.email.value) ==>
      var u := FindUserByEmail(t, b.email.value).value;
      && (!u.isAdmin ==> r == Err(NotAnAdminUser))
      && (u.isAdmin && !u.isVerified ==> r == Err(AccountNotVerified))
      && (u.isAdmin && u.isVerified && !c.matches(b.password.value, u.password) ==> r == Err(InvalidCredentials))
      && (u.isAdmin && u.isVerified && c.matches(b.password.value, u.password) ==>
            r == Ok(Session(Claims(u.id, u.email, true, TokenLifetime), SessionUser(u.id, u.name, u.email, true))))
  {
    match LoginViolation(c, b)
    case Some(f) => Err(Invalid(f))
    case None =>
      match FindUserByEmail(t, b.email.value)
      case None => Err(NotAnAdminUser)
      case Some(u) =>
        if !u.isAdmin then Err(NotAnAdminUser)
        else if !u.isVerified then Err(AccountNotVerified)
        else if !c.matches(b.password.value, u.password) then Err(InvalidCredentials)
        else Ok(Session(Claims(u.id, u.email, true, TokenLifetime), SessionUser(u.id, u.name, u.email, true)))
  }

  /** `getUserById`: the public projection of the row with that id, or 404. */
  function GetUserById(t: UserTable, id: int): (r: Result<PublicUser, AuthError>)
    ensures r.Err? <==> !HasId(t, id)
    ensures r.Err? ==> r.error == UserIdNotFound && Status(r.error) == 404
    ensures r.Ok? ==>
      (exists u :: u in t.rows && u.id == id && r.value == PublicUser(u.id, u.name, u.email, u.isVerified))
  {
    match FindUserById(t, id)
    case None => Err(UserIdNotFound)
    case Some(u) => Ok(Publish(u))
  }

  /** `getAllUsers`: the controller re-projects the already projected rows of `findAllUsers`. */
  function GetAllUsers(t: UserTable): (r: seq<PublicUser>)
    ensures |r| == |t.rows|
    ensures forall i :: 0 <= i < |r| ==> r[i] == Publish(t.rows[i])
  {
    var rows := FindAllUsers(t);
    seq(|rows|, i requires 0 <= i < |rows| => PublicUser(rows[i].id, rows[i].name, rows[i].email, rows[i].isVerified))
  }
}

=== FILE: dashboard.dfy ===
/** The pure pieces of frontend/src/pages/Dashboard.jsx: the mood table, the search and
    mood filter over the fetched listing, the 150-character preview and the create-form guard. */
module Dashboard {
  import opened Wrappers
  import opened Seqs
  import opened JournalStore
  import JournalService

  /** One choice of the mood picker. */
  datatype Mood = Mood(emoji: string, name: string)

  const Moods: seq<Mood> := [
    Mood("\U{1F60A}", "Happy"),
    Mood("\U{1F614}", "Sad"),
    Mood("\U{1F621}", "Angry"),
    Mood("\U{1F630}", "Anxious"),
    Mood("\U{1F60C}", "Calm"),
    Mood("\U{1F914}", "Thoughtful"),
    Mood("\U{1F634}", "Tired"),
    Mood("\U{1F389}", "Excited")
  ]

  /** `getMoodEmoji`: the emoji of the first mood with that label, or "" for any other label. */
  function MoodEmoji(moodName: string): (r: string)
    ensures r != "" <==> exists i :: 0 <= i < |Moods| && Moods[i].name == moodName
    ensures r != "" ==> exists i :: 0 <= i < |Moods| && Moods[i].name == moodName && r == Moods[i].emoji
  {
    match FirstIndex(Moods, (m: Mood) => m.name == moodName)
    case None => ""
    case Some(i) => Moods[i].emoji
  }

  /** Each label of the picker shows its own emoji: the labels are distinct, so the first
      match is the one. */
  lemma MoodTable()
    ensures forall i :: 0 <= i < |Moods| ==> MoodEmoji(Moods[i].name) == Moods[i].emoji
  {
    forall i | 0 <= i < |Moods|
      ensures MoodEmoji(Moods[i].name) == Moods[i].emoji
    {
      var names := ["Happy", "Sad", "Angry", "Anxious", "Calm", "Thoughtful", "Tired", "Excited"];
      assert forall j :: 0 <= j < |Moods| ==> Moods[j].name == names[j];
      assert forall j, k :: 0 <= j < k < |names| ==> names[j] != names[k];
    }
  }

  /** `toLowerCase`, restricted to the letters A-Z. */
  function LowerChar(c: char): char {
    if 'A' <= c <= 'Z' then ((c as int) + 32) as char else c
  }

  const Upper := "ABCDEFGHIJKLMNOPQRSTUVWXYZ"
  const Lower := "abcdefghijklmnopqrstuvwxyz"

  /** `LowerChar` per character: the result is no capital, a capital becomes the small
      letter of the same alphabet position, anything else is kept. */
  lemma LowerCharSpec(c: char)
    ensures LowerChar(c) !in Upper
    ensures c !in Upper ==> LowerChar(c) == c
    ensures forall j :: 0 <= j < |Upper| && c == Upper[j] ==> LowerChar(c) == Lower[j]
  {
    assert forall j :: 0 <= j < |Upper| ==> Upper[j] as int == 'A' as int + j && Lower[j] as int == 'a' as int + j;
  }

  /** Lower-casing leaves no capital letter, replaces each capital by the small letter of
      the same alphabet position and keeps every other character. */
  function ToLower(s: string): (r: string)
    ensures |r| == |s|
    ensures forall i :: 0 <= i < |r| ==> r[i] !in Upper
    ensures forall i :: 0 <= i < |s| && s[i] !in Upper ==> r[i] == s[i]
    ensures forall i, j :: 0 <= i < |s| && 0 <= j < |Upper| && s[i] == Upper[j] ==> r[i] == Lower[j]
  {
    forall c: char {
      LowerCharSpec(c);
    }
    seq(|s|, i requires 0 <= i < |s| => LowerChar(s[i]))
  }

  /** Lower-casing twice is lower-casing once. */
  lemma ToLowerIdempotent(s: string)
    ensures ToLower(ToLower(s)) == ToLower(s)
  {
  }

  /** `String.prototype.includes`: `t` occurs in `s` at some position. */
  predicate Contains(s: string, t: string) {
    exists i :: 0 <= i <= |s| - |t| && OccursAt(s, t, i)
  }

  predicate OccursAt(s: string, t: string, i: int)
    requires 0 <= i <= |s| - |t|
  {
    s[i..i + |t|] == t
  }

  /** `matchesSearch`: an empty term matches everything; otherwise the lower-cased title or
      content contains the lower-cased term. */
  predicate MatchesSearch(e: Entry, term: string) {
    term == "" || Contains(ToLower(e.title), ToLower(term)) || Contains(ToLower(e.content), ToLower(term))
  }

  /** `matchesMood`: an empty filter matches everything; otherwise the mood must be equal. */
  predicate MatchesMood(e: Entry, mood: string) {
    mood == "" || e.mood == Some(mood)
  }

  predicate Kept(e: Entry, term: string, mood: string) {
    MatchesSearch(e, term) && MatchesMood(e, mood)
  }

  /** `filteredJournals`: `journals.filter(…)` with the search term and the mood filter. */
  function FilterJournals(js: seq<Entry>, term: string, mood: string): (r: seq<Entry>)
    ensures forall e :: e in r <==> e in js && Kept(e, term, mood)
    ensures mood != "" ==> forall e :: e in r ==> e.mood == Some(mood)
    ensures term != "" ==> forall e :: e in r ==>
      Contains(ToLower(e.title), ToLower(term)) || Contains(ToLower(e.content), ToLower(term))
    ensures |r| <= |js|
    ensures forall e :: multiset(r)[e] == if Kept(e, term, mood) then multiset(js)[e] else 0
  {
    if |js| == 0 then []
    else
      var rest := FilterJournals(js[1..], term, mood);
      assert js == [js[0]] + js[1..];
      assert forall e :: e in js <==> e == js[0] || e in js[1..];
      assert multiset(js) == multiset([js[0]]) + multiset(js[1..]);
      (if Kept(js[0], term, mood) then [js[0]] else []) + rest
  }

  /** The filter keeps the fetched order: its result is a subsequence of its input. */
  lemma {:induction false} FilterIsSubsequence(js: seq<Entry>, term: string, mood: string)
    ensures IsSubsequence(FilterJournals(js, term, mood), js)
  {
    if |js| > 0 {
      FilterIsSubsequence(js[1..], term, mood);
      var rest := FilterJournals(js[1..], term, mood);
      if Kept(js[0], term, mood) {
        var r := FilterJournals(js, term, mood);
        assert r == [js[0]] + rest && r[1..] == rest;
      } else {
        assert FilterJournals(js, term, mood) == rest;
      }
    }
  }

  /** With no search term and no mood filter every fetched entry is shown, in order. */
  lemma {:induction false} FilterWithoutCriteria(js: seq<Entry>)
    ensures FilterJournals(js, "", "") == js
  {
    if |js| > 0 {
      FilterWithoutCriteria(js[1..]);
      assert Kept(js[0], "", "");
      assert FilterJournals(js, "", "") == [js[0]] + FilterJournals(js[1..], "", "");
      assert js == [js[0]] + js[1..];
    }
  }

  /** The search ignores the case of the term: two terms that lower-case alike select the
      same entries. */
  lemma {:induction false} FilterIgnoresTermCase(js: seq<Entry>, t1: string, t2: string, mood: string)
    requires ToLower(t1) == ToLower(t2)
    ensures FilterJournals(js, t1, mood) == FilterJournals(js, t2, mood)
  {
    assert (t1 == "") == (t2 == "") by {
      assert |t1| == |ToLower(t1)| == |ToLower(t2)| == |t2|;
    }
    if |js| > 0 {
      FilterIgnoresTermCase(js[1..], t1, t2, mood);
      assert Kept(js[0], t1, mood) == Kept(js[0], t2, mood);
    }
  }

  /** An entry that may precede every element of a listing-ordered sequence can head it. */
  lemma PrependKeepsOrder(x: Entry, s: seq<Entry>)
    requires SortedForListing(s)
    requires forall e :: e in s ==> ListedBefore(x, e)
    ensures SortedForListing([x] + s)
  {
    var r := [x] + s;
    forall i, j | 0 <= i < j < |r|
      ensures ListedBefore(r[i], r[j])
    {
      assert r[j] == s[j - 1] && s[j - 1] in s;
      if i > 0 {
        assert r[i] == s[i - 1];
      }
    }
  }

  /** Filtering the server's listing keeps its order: pinned first, newest first. */
  lemma {:induction false} FilterKeepsListingOrder(js: seq<Entry>, term: string, mood: string)
    requires SortedForListing(js)
    ensures SortedForListing(FilterJournals(js, term, mood))
  {
    if |js| > 0 {
      assert SortedForListing(js[1..]);
      FilterKeepsListingOrder(js[1..], term, mood);
      var rest := FilterJournals(js[1..], term, mood);
      forall e | e in rest
        ensures ListedBefore(js[0], e)
      {
        var k :| 0 <= k < |js[1..]| && js[1..][k] == e;
        assert js[k + 1] == e;
      }
      if Kept(js[0], term, mood) {
        PrependKeepsOrder(js[0], rest);
      }
    }
  }

  /** What the dashboard shows is the caller's own entries, in listing order. */
  lemma DashboardShowsOnlyOwnEntries(s: Store, caller: nat, term: string, mood: string)
    ensures var shown := FilterJournals(JournalService.GetAllJournals(s, caller), term, mood);
      && (forall e :: e in shown ==> e.userId == caller)
      && SortedForListing(shown)
  {
    FilterKeepsListingOrder(JournalService.GetAllJournals(s, caller), term, mood);
  }

  /** Number of characters of content shown before it is cut. */
  const PreviewLength: nat := 150

  /** The card preview: content longer than 150 characters is cut to its first 150 followed
      by "..."; shorter content is shown as is. */
  function Preview(content: string): (r: string)
    ensures |content| <= PreviewLength ==> r == content
    ensures |content| > PreviewLength ==> |r| == PreviewLength + 3
    ensures |r| <= PreviewLength + 3
    ensures |content| > PreviewLength ==> r[..PreviewLength] == content[..PreviewLength] && r[PreviewLength..] == "..."
  {
    if |content| > PreviewLength then content[..PreviewLength] + "..." else content
  }

  /** Previewing a preview changes nothing. */
  lemma PreviewIdempotent(content: string)
    ensures Preview(Preview(content)) == Preview(content)
  {
  }

  /** The outcome of `handleCreateJournal`'s checks before any request is sent. */
  datatype FormCheck = Submit | NeedTitleAndContent | NeedMood

  function CheckCreateForm(title: string, content: string, mood: string): (r: FormCheck)
    ensures r == Submit <==> title != "" && content != "" && mood != ""
    ensures r == NeedTitleAndContent <==> title == "" || content == ""
  {
    if title == "" || content == "" then NeedTitleAndContent
    else if mood == "" then NeedMood
    else Submit
  }

  /** A form the dashboard submits always passes the server's validation and is created. */
  lemma SubmittedFormIsCreated(s: Store, caller: nat, title: string, content: string, mood: string)
    requires CheckCreateForm(title, content, mood) == Submit
    ensures JournalService.CreateJournal(s, caller, JournalService.JournalBody(Some(title), Some(content), Some(mood))).reply.Ok?
  {
  }
}

=== FILE: journal_properties.dfy ===
/** Properties of the journal service that relate several requests or several callers. */
module JournalProperties {
  import opened Wrappers
  import opened Seqs
  import JournalStore
  import opened JournalService

  /** The mutating requests of backend/routes/journalRoutes.js. */
  datatype Mutation =
    | CreateReq(body: JournalBody)
    | UpdateReq(id: int, body: JournalBody)
    | DeleteReq(id: int)
    | TogglePinReq(id: int)

  /** The store a mutation by `caller` leaves behind. */
  function Apply(s: JournalStore.Store, caller: nat, m: Mutation): JournalStore.Store {
    match m
    case CreateReq(b) => CreateJournal(s, caller, b).store
    case UpdateReq(id, b) => UpdateJournal(s, caller, id, b).store
    case DeleteReq(id) => DeleteJournal(s, caller, id).store
    case TogglePinReq(id) => TogglePinJournal(s, caller, id).store
  }

  /** Entries of other users are exactly as they were: none changed, none removed, none added. */
  ghost predicate OthersUntouched(s: JournalStore.Store, s': JournalStore.Store, caller: nat) {
    && (forall k :: k in s.entries && s.entries[k].userId != caller ==> k in s'.entries && s'.entries[k] == s.entries[k])
    && (forall k :: k in s'.entries && s'.entries[k].userId != caller ==> k in s.entries && s'.entries[k] == s.entries[k])
  }

  /** Ownership isolation: whatever a caller asks, the other users' entries do not change. */
  lemma CallerOnlyTouchesOwnEntries(s: JournalStore.Store, caller: nat, m: Mutation)
    requires JournalStore.Valid(s)
    ensures JournalStore.Valid(Apply(s, caller, m))
    ensures OthersUntouched(s, Apply(s, caller, m), caller)
  {
  }

  /** Another user's entry is "not found" to the caller, exactly as an id that does not exist,
      on every by-id request, and none of them changes the store. */
  lemma ForeignEntryIsNotFound(s: JournalStore.Store, caller: nat, foreign: nat, missing: nat, b: JournalBody)
    requires foreign in s.entries && s.entries[foreign].userId != caller
    requires missing !in s.entries
    requires BodyOk(b)
    ensures GetJournalById(s, caller, foreign) == GetJournalById(s, caller, missing) == Err(JournalNotFound)
    ensures UpdateJournal(s, caller, foreign, b) == UpdateJournal(s, caller, missing, b) == Step(s, Err(JournalNotFound))
    ensures DeleteJournal(s, caller, foreign) == DeleteJournal(s, caller, missing) == Step(s, Err(JournalNotFound))
    ensures TogglePinJournal(s, caller, foreign) == TogglePinJournal(s, caller, missing) == Step(s, Err(JournalNotFound))
  {
  }

  /** Toggling a pin twice restores the pin and every other field of the entry, except the
      modification time the database refreshes on each write; all other entries are as before. */
  lemma TogglePinTwice(s: JournalStore.Store, caller: nat, id: int)
    requires JournalStore.Owns(s, id, caller)
    ensures var s1 := TogglePinJournal(s, caller, id);
      var s2 := TogglePinJournal(s1.store, caller, id);
      && s1.reply.Ok? && s2.reply.Ok?
      && s2.store.entries.Keys == s.entries.Keys
      && s2.store.entries[id] == s.entries[id].(updatedAt := s2.store.entries[id].updatedAt)
      && (forall k :: k in s.entries && k != id ==> s2.store.entries[k] == s.entries[k])
  {
  }

  /** The listing order: pinned entries come first, and within each group strictly newer
      entries come first. */
  lemma ListingOrder(s: JournalStore.Store, caller: nat)
    requires JournalStore.Valid(s)
    ensures var r := GetAllJournals(s, caller);
      forall i, j :: 0 <= i < j < |r| ==>
        && (r[i].pinned || !r[j].pinned)
        && (r[i].pinned == r[j].pinned ==> r[i].createdAt > r[j].createdAt)
  {
    var r := GetAllJournals(s, caller);
    forall i, j | 0 <= i < j < |r|
      ensures r[i].pinned || !r[j].pinned
      ensures r[i].pinned == r[j].pinned ==> r[i].createdAt > r[j].createdAt
    {
      assert JournalStore.ListedBefore(r[i], r[j]);
      assert r[i] in r && r[j] in r;
      var ki :| ki in s.entries && s.entries[ki] == r[i];
      var kj :| kj in s.entries && s.entries[kj] == r[j];
      if ki == kj {
        RepeatedValueCountsTwice(r, i, j);
        assert false;
      }
    }
  }

  /** A caller's listing holds exactly the given entries when those are all the caller owns. */
  lemma ListingOfOnlyEntry(s: JournalStore.Store, caller: nat, id: nat)
    requires JournalStore.Valid(s) && JournalStore.Owns(s, id, caller)
    requires forall k :: k in s.entries && s.entries[k].userId == caller ==> k == id
    ensures GetAllJournals(s, caller) == [s.entries[id]]
  {
    var r := GetAllJournals(s, caller);
    forall x | x in r
      ensures x == s.entries[id]
    {
      var k :| k in s.entries && s.entries[k] == x;
    }
    CountOfConstant(r, s.entries[id]);
  }

  /** A caller who owns nothing has no rows below any bound. */
  lemma {:induction false} NothingOwnedBelow(entries: map<nat, JournalStore.Entry>, caller: nat, n: nat)
    requires forall k :: k in entries ==> entries[k].userId != caller
    ensures JournalStore.OwnedBelow(entries, caller, n) == []
  {
    if n > 0 {
      NothingOwnedBelow(entries, caller, n - 1);
    }
  }

  /** A caller who owns nothing sees an empty listing. */
  lemma ListingOfNothing(s: JournalStore.Store, caller: nat)
    requires forall k :: k in s.entries ==> s.entries[k].userId != caller
    ensures GetAllJournals(s, caller) == []
  {
    NothingOwnedBelow(s.entries, caller, s.nextId);
    var r := GetAllJournals(s, caller);
    assert multiset(r) == multiset{};
  }

  /** First half of the walk-through: a create answers the new id and the listing then
      shows that one entry, unpinned, stamped with the current clock. */
  lemma CreateShowsOnlyEntry(s: JournalStore.Store, caller: nat, title: string, content: string, mood: string)
    requires JournalStore.Valid(s)
    requires forall k :: k in s.entries ==> s.entries[k].userId != caller
    requires title != "" && content != ""
    ensures var c := CreateJournal(s, caller, JournalBody(Some(title), Some(content), Some(mood)));
      && c.reply == Ok(s.nextId)
      && JournalStore.Valid(c.store)
      && JournalStore.Owns(c.store, s.nextId, caller)
      && !c.store.entries[s.nextId].pinned
      && (forall k :: k in c.store.entries && k != s.nextId ==> c.store.entries[k].userId != caller)
      && GetAllJournals(c.store, caller)
         == [JournalStore.Entry(s.nextId, caller, title, content, Some(mood), false, s.clock, s.clock)]
  {
    var c := CreateJournal(s, caller, JournalBody(Some(title), Some(content), Some(mood)));
    assert c.reply == Ok(s.nextId) && JournalStore.Valid(c.store);
    assert forall k :: k in c.store.entries && c.store.entries[k].userId == caller ==> k == s.nextId;
    ListingOfOnlyEntry(c.store, caller, s.nextId);
  }

  /** Second half: with one unpinned entry of the caller's, a pin toggle pins it and a second
      one unpins it; a delete removes it, after which it is "not found" and the listing is
      empty again. */
  lemma PinUnpinDelete(s: JournalStore.Store, caller: nat, id: nat)
    requires JournalStore.Valid(s) && JournalStore.Owns(s, id, caller) && !s.entries[id].pinned
    requires forall k :: k in s.entries && k != id ==> s.entries[k].userId != caller
    ensures var p1 := TogglePinJournal(s, caller, id);
      var p2 := TogglePinJournal(p1.store, caller, id);
      var d := DeleteJournal(p2.store, caller, id);
      && p1.reply.Ok? && GetJournalById(p1.store, caller, id).Ok? && GetJournalById(p1.store, caller, id).value.pinned
      && p2.reply.Ok? && GetJournalById(p2.store, caller, id).Ok? && !GetJournalById(p2.store, caller, id).value.pinned
      && d.reply == Ok(())
      && GetJournalById(d.store, caller, id) == Err(JournalNotFound)
      && GetAllJournals(d.store, caller) == []
  {
    var p1 := TogglePinJournal(s, caller, id);
    assert p1.reply.Ok? && p1.store.entries[id].pinned;
    var p2 := TogglePinJournal(p1.store, caller, id);
    assert p2.reply.Ok? && !p2.store.entries[id].pinned;
    assert p2.store.entries.Keys == s.entries.Keys;
    assert forall k :: k in p2.store.entries && k != id ==> p2.store.entries[k] == s.entries[k];
    var d := DeleteJournal(p2.store, caller, id);
    assert d.reply == Ok(());
    assert forall k :: k in d.store.entries ==> d.store.entries[k].userId != caller;
    ListingOfNothing(d.store, caller);
  }

  /** The journal walk-through of a verified user with no entries yet: the listing is empty;
      a create answers the new id; the listing then shows that one entry, unpinned; a pin
      toggle pins it and a second one unpins it; a delete removes it, after which it is
      "not found" and the listing is empty again. */
  lemma {:induction false} JournalLifecycle(s: JournalStore.Store, caller: nat, title: string, content: string, mood: string)
    requires JournalStore.Valid(s)
    requires forall k :: k in s.entries ==> s.entries[k].userId != caller
    requires title != "" && content != ""
    ensures var b := JournalBody(Some(title), Some(content), Some(mood));
      var c := CreateJournal(s, caller, b);
      var id := s.nextId;
      var p1 := TogglePinJournal(c.store, caller, id);
      var p2 := TogglePinJournal(p1.store, caller, id);
      var d := DeleteJournal(p2.store, caller, id);
      && GetAllJournals(s, caller) == []
      && c.reply == Ok(id)
      && GetAllJournals(c.store, caller) == [JournalStore.Entry(id, caller, title, content, Some(mood), false, s.clock, s.clock)]
      && p1.reply.Ok? && GetJournalById(p1.store, caller, id).Ok? && GetJournalById(p1.store, caller, id).value.pinned
      && p2.reply.Ok? && GetJournalById(p2.store, caller, id).Ok? && !GetJournalById(p2.store, caller, id).value.pinned
      && d.reply == Ok(())
      && GetJournalById(d.store, caller, id) == Err(JournalNotFound)
      && GetAllJournals(d.store, caller) == []
  {
    ListingOfNothing(s, caller);
    CreateShowsOnlyEntry(s, caller, title, content, mood);
    var c := CreateJournal(s, caller, JournalBody(Some(title), Some(content), Some(mood)));
    PinUnpinDelete(c.store, caller, s.nextId);
  }
}

=== FILE: journal_service.dfy ===
/** The request handlers of backend/controllers/journalController.js. The caller's id is the
    one the bearer-token middleware attached to the request and is trusted here. Each
    handler is one atomic step over the journal store. */
module JournalService {
  import opened Wrappers
  import opened JournalStore

  datatype JournalError = TitleAndContentRequired | JournalNotFound

  /** The HTTP status each failure is answered with. */
  function Status(e: JournalError): (code: nat)
    ensures code == 400 <==> e == TitleAndContentRequired
    ensures code == 404 <==> e == JournalNotFound
  {
    match e
    case TitleAndContentRequired => 400
    case JournalNotFound => 404
  }

  /** A handler's reply together with the store it leaves behind. */
  datatype Step<+T> = Step(store: Store, reply: Result<T, JournalError>)

  /** The JSON body of a create or update request; any field may be missing. */
  datatype JournalBody = JournalBody(title: Option<string>, content: Option<string>, mood: Option<string>)

  /** JavaScript truthiness of a string field: present and non-empty. */
  predicate Truthy(v: Option<string>) {
    v.Some? && v.value != ""
  }

  /** The guard `!title || !content` shared by create and update. */
  predicate BodyOk(b: JournalBody) {
    Truthy(b.title) && Truthy(b.content)
  }

  /** `createJournal`: validation before any storage call, then an insert owned by the caller. */
  function CreateJournal(s: Store, caller: nat, b: JournalBody): (r: Step<nat>)
    ensures !BodyOk(b) <==> r == Step(s, Err(TitleAndContentRequired))
    ensures r.reply.Ok? <==> BodyOk(b)
    ensures r.reply.Err? ==> Status(r.reply.error) == 400
    ensures r.reply.Ok? ==>
      && r.reply.value == s.nextId
      && r.store.entries.Keys == s.entries.Keys + {r.reply.value}
      && r.store.entries[r.reply.value] ==
           Entry(r.reply.value, caller, b.title.value, b.content.value, b.mood, false, s.clock, s.clock)
      && (forall k :: k in s.entries && k != r.reply.value ==> r.store.entries[k] == s.entries[k])
    ensures Valid(s) && r.reply.Ok? ==> Valid(r.store) && r.reply.value !in s.entries
  {
    if !BodyOk(b) then Step(s, Err(TitleAndContentRequired))
    else
      var ins := JournalStore.CreateJournal(s, caller, b.title.value, b.content.value, b.mood);
      Step(ins.store, Ok(ins.id))
  }

  /** `getAllJournals`: the caller's listing, never anyone else's entry. */
  function GetAllJournals(s: Store, caller: nat): (r: seq<Entry>)
    ensures forall e :: e in r ==> e.userId == caller
    ensures forall e :: e in r ==> exists k :: k in s.entries && s.entries[k] == e
    ensures Valid(s) ==> forall k :: k in s.entries && s.entries[k].userId == caller ==> multiset(r)[s.entries[k]] == 1
    ensures SortedForListing(r)
  {
    FindJournalsByUser(s, caller)
  }

  /** `getJournalById`: 404 when the id is missing and when it belongs to someone else. */
  function GetJournalById(s: Store, caller: nat, id: int): (r: Result<Entry, JournalError>)
    ensures r.Err? <==> !Owns(s, id, caller)
    ensures r.Err? ==> r.error == JournalNotFound && Status(r.error) == 404
    ensures r.Ok? ==> r.value == s.entries[id] && r.value.userId == caller
  {
    match FindJournalById(s, id, caller)
    case None => Err(JournalNotFound)
    case Some(e) => Ok(e)
  }

  /** `updateJournal`: validation first (400 even for an id the caller does not own), then
      ownership (404), then the update. */
  function UpdateJournal(s: Store, caller: nat, id: int, b: JournalBody): (r: Step<()>)
    ensures r.reply.Err? ==> r.store == s
    ensures !BodyOk(b) ==> r.reply == Err(TitleAndContentRequired)
    ensures BodyOk(b) && !Owns(s, id, caller) ==> r.reply == Err(JournalNotFound)
    ensures r.reply.Err? ==> Status(r.reply.error) == (if BodyOk(b) then 404 else 400)
    ensures r.reply.Ok? <==> BodyOk(b) && Owns(s, id, caller)
    ensures r.reply.Ok? ==>
      && r.store.entries.Keys == s.entries.Keys
      && r.store.entries[id].title == b.title.value && r.store.entries[id].content == b.content.value
      && r.store.entries[id].mood == b.mood
      && r.store.entries[id].userId == caller && r.store.entries[id].pinned == s.entries[id].pinned
      && r.store.entries[id].(title := s.entries[id].title, content := s.entries[id].content,
                              mood := s.entries[id].mood, updatedAt := s.entries[id].updatedAt) == s.entries[id]
      && (r.store.entries[id].updatedAt == s.entries[id].updatedAt || r.store.entries[id].updatedAt == s.clock)
      && (forall k :: k in s.entries && k != id ==> r.store.entries[k] == s.entries[k])
    ensures (r.reply.Ok? && s.entries[id].title == b.title.value && s.entries[id].content == b.content.value
             && s.entries[id].mood == b.mood) ==> r.store == s
    ensures Valid(s) && r.reply.Ok? && r.store != s ==> r.store.entries[id].updatedAt == s.clock
    ensures Valid(s) ==> Valid(r.store)
  {
    if !BodyOk(b) then Step(s, Err(TitleAndContentRequired))
    else if FindJournalById(s, id, caller).None? then Step(s, Err(JournalNotFound))
    else Step(JournalStore.UpdateJournal(s, id, caller, b.title.value, b.content.value, b.mood), Ok(()))
  }

  /** `deleteJournal`: ownership (404), then removal of exactly that entry. */
  function DeleteJournal(s: Store, caller: nat, id: int): (r: Step<()>)
    ensures r.reply.Err? <==> !Owns(s, id, caller)
    ensures r.reply.Err? ==> r == Step(s, Err(JournalNotFound)) && Status(r.reply.error) == 404
    ensures r.reply.Ok? ==>
      && r.store.entries.Keys == s.entries.Keys - {id}
      && (forall k :: k in r.store.entries ==> r.store.entries[k] == s.entries[k])
    ensures Valid(s) ==> Valid(r.store)
  {
    if FindJournalById(s, id, caller).None? then Step(s, Err(JournalNotFound))
    else Step(JournalStore.DeleteJournal(s, id, caller), Ok(()))
  }

  /** `togglePinJournal`: ownership (404), then the pin flag of exactly that entry flips. */
  function TogglePinJournal(s: Store, caller: nat, id: int): (r: Step<()>)
    ensures r.reply.Err? <==> !Owns(s, id, caller)
    ensures r.reply.Err? ==> r == Step(s, Err(JournalNotFound)) && Status(r.reply.error) == 404
    ensures r.reply.Ok? ==>
      && r.store.entries.Keys == s.entries.Keys
      && r.store.entries[id].pinned == !s.entries[id].pinned
      && r.store.entries[id].(pinned := s.entries[id].pinned, updatedAt := s.entries[id].updatedAt) == s.entries[id]
      && r.store.entries[id].updatedAt == s.clock
      && (forall k :: k in s.entries && k != id ==> r.store.entries[k] == s.entries[k])
    ensures Valid(s) ==> Valid(r.store)
  {
    if FindJournalById(s, id, caller).None? then Step(s, Err(JournalNotFound))
    else Step(JournalStore.TogglePinJournal(s, id, caller), Ok(()))
  }
}

=== FILE: journal_store.dfy ===
/** The `journals` table and the six statements of backend/models/Journal.js. Entries are
    keyed by id; `nextId` is the next AUTO_INCREMENT id and `clock` stands for the database
    clock, a counter that advances with every write that stamps a row. */
module JournalStore {
  import opened Wrappers

  /** One row of `journals`. `pinned` defaults to false. */
  datatype Entry = Entry(
    id: nat,
    userId: nat,
    title: string,
    content: string,
    mood: Option<string>,
    pinned: bool,
    createdAt: nat,
    updatedAt: nat)

  datatype Store = Store(entries: map<nat, Entry>, nextId: nat, clock: nat)

  /** The reply of an INSERT: the new table and its `insertId`. */
  datatype Inserted = Inserted(store: Store, id: nat)

  /** Keys are the rows' ids, below the AUTO_INCREMENT counter; creation times lie in the
      past and no two rows were created at the same instant. */
  ghost predicate Valid(s: Store) {
    && (forall k :: k in s.entries ==> s.entries[k].id == k && k < s.nextId)
    && (forall k :: k in s.entries ==> s.entries[k].createdAt < s.clock && s.entries[k].updatedAt < s.clock)
    && (forall k1, k2 :: k1 in s.entries && k2 in s.entries && k1 != k2 ==>
          s.entries[k1].createdAt != s.entries[k2].createdAt)
  }

  /** The row a statement `… WHERE id = ? AND user_id = ?` touches exists. */
  predicate Owns(s: Store, id: int, userId: nat) {
    id >= 0 && id in s.entries && s.entries[id].userId == userId
  }

  /** `createJournal`: `INSERT INTO journals (user_id, title, content, mood)`. */
  function CreateJournal(s: Store, userId: nat, title: string, content: string, mood: Option<string>)
    : (r: Inserted)
    ensures r.id == s.nextId && r.store.nextId == s.nextId + 1 && r.store.clock == s.clock + 1
    ensures r.store.entries == s.entries[r.id := Entry(r.id, userId, title, content, mood, false, s.clock, s.clock)]
    ensures Valid(s) ==> Valid(r.store) && r.id !in s.entries && Owns(r.store, r.id, userId)
  {
    var id := s.nextId;
    Inserted(Store(s.entries[id := Entry(id, userId, title, content, mood, false, s.clock, s.clock)], id + 1, s.clock + 1), id)
  }

  /** `findJournalById`: the row only when both its id and its owner match. */
  function FindJournalById(s: Store, id: int, userId: nat): (r: Option<Entry>)
    ensures r.Some? <==> Owns(s, id, userId)
    ensures r.Some? ==> r.value == s.entries[id] && r.value.userId == userId
  {
    if Owns(s, id, userId) then Some(s.entries[id]) else None
  }

  /** `updateJournal`: overwrites title, content and mood of the matching row. MySQL's
      `ON UPDATE CURRENT_TIMESTAMP` refreshes `updated_at` only when a value changes. */
  function UpdateJournal(s: Store, id: int, userId: nat, title: string, content: string, mood: Option<string>)
    : (r: Store)
    ensures !Owns(s, id, userId) ==> r == s
    ensures Owns(s, id, userId) ==>
      && r.entries.Keys == s.entries.Keys && r.nextId == s.nextId
      && r.entries[id].title == title && r.entries[id].content == content && r.entries[id].mood == mood
      && r.entries[id].(title := s.entries[id].title, content := s.entries[id].content,
                        mood := s.entries[id].mood, updatedAt := s.entries[id].updatedAt) == s.entries[id]
      && (r.entries[id].updatedAt == s.entries[id].updatedAt || r.entries[id].updatedAt == s.clock)
      && (forall k :: k in s.entries && k != id ==> r.entries[k] == s.entries[k])
    ensures (Owns(s, id, userId) && s.entries[id].title == title && s.entries[id].content == content
             && s.entries[id].mood == mood) ==> r == s
    ensures Valid(s) && Owns(s, id, userId) && r != s ==> r.entries[id].updatedAt == s.clock
    ensures Valid(s) ==> Valid(r)
  {
    if !Owns(s, id, userId) then s
    else
      var e := s.entries[id];
      var e' := e.(title := title, content := content, mood := mood);
      if e' == e then s
      else Store(s.entries[id := e'.(updatedAt := s.clock)], s.nextId, s.clock + 1)
  }

  /** `deleteJournal`: removes the matching row, and nothing when the owner differs. */
  function DeleteJournal(s: Store, id: int, userId: nat): (r: Store)
    ensures !Owns(s, id, userId) ==> r == s
    ensures Owns(s, id, userId) ==> r.entries.Keys == s.entries.Keys - {id}
    ensures forall k :: k in r.entries ==> k in s.entries && r.entries[k] == s.entries[k]
    ensures r.nextId == s.nextId
    ensures Valid(s) ==> Valid(r)
  {
    if Owns(s, id, userId) then Store(s.entries - {id}, s.nextId, s.clock) else s
  }

  /** `togglePinJournal`: `SET pinned = NOT pinned` on the matching row. */
  function TogglePinJournal(s: Store, id: int, userId: nat): (r: Store)
    ensures !Owns(s, id, userId) ==> r == s
    ensures Owns(s, id, userId) ==>
      && r.entries.Keys == s.entries.Keys && r.nextId == s.nextId
      && r.entries[id].pinned == !s.entries[id].pinned
      && r.entries[id].(pinned := s.entries[id].pinned, updatedAt := s.entries[id].updatedAt) == s.entries[id]
      && r.entries[id].updatedAt == s.clock
      && (forall k :: k in s.entries && k != id ==> r.entries[k] == s.entries[k])
    ensures Valid(s) ==> Valid(r)
  {
    if !Owns(s, id, userId) then s
    else
      var e := s.entries[id];
      Store(s.entries[id := e.(pinned := !e.pinned, updatedAt := s.clock)], s.nextId, s.clock + 1)
  }

  /** `ORDER BY pinned DESC, created_at DESC`: `a` may be listed before `b`. */
  predicate ListedBefore(a: Entry, b: Entry) {
    (a.pinned && !b.pinned) || (a.pinned == b.pinned && a.createdAt >= b.createdAt)
  }

  predicate SortedForListing(s: seq<Entry>) {
    forall i, j :: 0 <= i < j < |s| ==> ListedBefore(s[i], s[j])
  }

  /** Inserts `x` into a sequence ahead of the first entry it may precede. */
  function Insert(x: Entry, s: seq<Entry>): (r: seq<Entry>)
    ensures multiset(r) == multiset(s) + multiset{x}
  {
    if |s| == 0 then [x]
    else if ListedBefore(x, s[0]) then [x] + s
    else
      assert s == [s[0]] + s[1..];
      [s[0]] + Insert(x, s[1..])
  }

  /** Inserting into a listing-ordered sequence keeps it in listing order. */
  lemma {:induction false} InsertKeepsOrder(x: Entry, s: seq<Entry>)
    requires SortedForListing(s)
    ensures SortedForListing(Insert(x, s))
  {
    if |s| > 0 && !ListedBefore(x, s[0]) {
      var rest := Insert(x, s[1..]);
      InsertKeepsOrder(x, s[1..]);
      forall j | 0 <= j < |rest|
        ensures ListedBefore(s[0], rest[j])
      {
        assert rest[j] in multiset(rest);
        if rest[j] != x {
          assert rest[j] in multiset(s[1..]);
          var k :| 0 <= k < |s[1..]| && s[1..][k] == rest[j];
          assert s[k + 1] == rest[j];
        }
      }
    }
  }

  /** Insertion sort into listing order. */
  function SortForListing(s: seq<Entry>): (r: seq<Entry>)
    ensures SortedForListing(r)
    ensures multiset(r) == multiset(s)
  {
    if |s| == 0 then []
    else
      assert s == s[..|s| - 1] + [s[|s| - 1]];
      var sorted := SortForListing(s[..|s| - 1]);
      InsertKeepsOrder(s[|s| - 1], sorted);
      Insert(s[|s| - 1], sorted)
  }

  /** The caller's rows among the keys below `n`, in ascending id order. */
  function OwnedBelow(entries: map<nat, Entry>, userId: nat, n: nat): (r: seq<Entry>)
    ensures forall e :: e in r <==> exists k :: 0 <= k < n && k in entries && entries[k] == e && e.userId == userId
    ensures (forall k :: k in entries ==> entries[k].id == k) ==>
      forall i, j :: 0 <= i < j < |r| ==> r[i].id < r[j].id
  {
    if n == 0 then []
    else
      var prefix := OwnedBelow(entries, userId, n - 1);
      var k := n - 1;
      if k in entries && entries[k].userId == userId then prefix + [entries[k]] else prefix
  }

  /** Every entry occurs at most once in a sequence whose ids strictly increase. */
  lemma {:induction false} AscendingIdsOccurOnce(s: seq<Entry>, e: Entry)
    requires forall i, j :: 0 <= i < j < |s| ==> s[i].id < s[j].id
    ensures multiset(s)[e] <= 1
  {
    if |s| > 0 {
      var p := s[..|s| - 1];
      assert s == p + [s[|s| - 1]];
      AscendingIdsOccurOnce(p, e);
      if e == s[|s| - 1] {
        forall i | 0 <= i < |p|
          ensures p[i] != e
        {
          assert s[i].id < s[|s| - 1].id;
        }
      }
    }
  }

  /** The sorted owned rows are the owned rows, each exactly once when the store is valid. */
  lemma SortedOwnedRows(s: Store, userId: nat)
    ensures var owned := OwnedBelow(s.entries, userId, s.nextId);
      var r := SortForListing(owned);
      && (forall e :: e in r ==> e.userId == userId && exists k :: k in s.entries && s.entries[k] == e)
      && (Valid(s) ==> forall k :: k in s.entries && s.entries[k].userId == userId ==> multiset(r)[s.entries[k]] == 1)
  {
    var owned := OwnedBelow(s.entries, userId, s.nextId);
    var r := SortForListing(owned);
    forall e | e in r
      ensures e.userId == userId && exists k :: k in s.entries && s.entries[k] == e
    {
      assert e in multiset(r);
      assert e in owned;
    }
    if Valid(s) {
      forall k | k in s.entries && s.entries[k].userId == userId
        ensures multiset(r)[s.entries[k]] == 1
      {
        AscendingIdsOccurOnce(owned, s.entries[k]);
        assert s.entries[k] in owned;
      }
    }
  }

  /** `findJournalsByUser`: `SELECT * … WHERE user_id = ? ORDER BY pinned DESC, created_at DESC`.
      Only the caller's rows, each of them exactly once, in listing order. */
  function FindJournalsByUser(s: Store, userId: nat): (r: seq<Entry>)
    ensures forall e :: e in r ==> e.userId == userId && exists k :: k in s.entries && s.entries[k] == e
    ensures Valid(s) ==> forall k :: k in s.entries && s.entries[k].userId == userId ==> multiset(r)[s.entries[k]] == 1
    ensures SortedForListing(r)
  {
    SortedOwnedRows(s, userId);
    SortForListing(OwnedBelow(s.entries, userId, s.nextId))
  }
}

=== FILE: otp.dfy ===
/** One-time codes as rendered by `generateOtp` in backend/utils/otpUtil.js:
    `Math.floor(100000 + Math.random() * 900000).toString()`.
    The random draw is abstracted as an integer `draw` in [0, 900000): the floor of
    `Math.random() * 900000`. */
module Otp {

  /** Smallest code the generator can produce. */
  const MinCode: nat := 100000
  /** Number of distinct codes: the draw lies in [0, CodeRange). */
  const CodeRange: nat := 900000
  /** Every generated code has exactly this many characters. */
  const CodeLength: nat := 6

  function Pow10(k: nat): (r: nat)
    ensures r >= 1
  {
    if k == 0 then 1 else 10 * Pow10(k - 1)
  }

  lemma {:induction false} Pow10Monotone(a: nat, b: nat)
    requires a <= b
    ensures Pow10(a) <= Pow10(b)
    decreases b - a
  {
    if a < b {
      Pow10Monotone(a, b - 1);
    }
  }

  predicate IsDigit(c: char) {
    '0' <= c <= '9'
  }

  predicate AllDigits(s: string) {
    forall i :: 0 <= i < |s| ==> IsDigit(s[i])
  }

  function DigitChar(d: nat): (c: char)
    requires d < 10
    ensures IsDigit(c)
    ensures (c == '0') == (d == 0)
  {
    (('0' as int) + d) as char
  }

  function DigitValue(c: char): (d: nat)
    requires IsDigit(c)
    ensures d < 10
    ensures DigitChar(d) == c
  {
    (c as int) - ('0' as int)
  }

  /** Decimal rendering of a natural number, as JavaScript's `Number.prototype.toString()`
      renders a non-negative integer: no sign, no leading zero. */
  function ToDecimal(n: nat): (s: string)
    ensures 1 <= |s|
    ensures AllDigits(s)
    ensures (s[0] == '0') == (n == 0)
    decreases n
  {
    if n < 10 then [DigitChar(n)] else ToDecimal(n / 10) + [DigitChar(n % 10)]
  }

  /** Reference reading of a digit string as a number (most significant digit first). */
  function ParseDecimal(s: string): (n: nat)
    requires AllDigits(s)
    ensures n < Pow10(|s|)
    ensures |s| > 0 && s[0] != '0' ==> Pow10(|s| - 1) <= n
    decreases |s|
  {
    if |s| == 0 then 0 else 10 * ParseDecimal(s[..|s| - 1]) + DigitValue(s[|s| - 1])
  }

  /** Reading back a rendered number gives the number. */
  lemma {:induction false} ParseOfToDecimal(n: nat)
    ensures ParseDecimal(ToDecimal(n)) == n
    decreases n
  {
    var s := ToDecimal(n);
    if n < 10 {
      assert s[..|s| - 1] == [];
    } else {
      assert s[..|s| - 1] == ToDecimal(n / 10);
      ParseOfToDecimal(n / 10);
    }
  }

  /** Rendering a canonical digit string (no leading zero unless it is "0") read as a
      number gives the string back. */
  lemma {:induction false} ToDecimalOfParse(s: string)
    requires AllDigits(s) && |s| >= 1
    requires s[0] != '0' || |s| == 1
    ensures ToDecimal(ParseDecimal(s)) == s
    decreases |s|
  {
    var last := DigitValue(s[|s| - 1]);
    if |s| == 1 {
      assert s[..0] == [];
      assert ParseDecimal(s) == last;
      assert s == [s[0]];
    } else {
      var p := s[..|s| - 1];
      assert p[0] == s[0];
      ToDecimalOfParse(p);
      var n := ParseDecimal(s);
      assert n == 10 * ParseDecimal(p) + last;
      assert n / 10 == ParseDecimal(p) && n % 10 == last;
      assert s == p + [s[|s| - 1]];
    }
  }

  /** A rendered number has exactly k digits when it lies in [10^(k-1), 10^k). */
  lemma DecimalLength(n: nat, k: nat)
    requires 1 <= k
    requires Pow10(k - 1) <= n < Pow10(k)
    ensures |ToDecimal(n)| == k
  {
    var s := ToDecimal(n);
    ParseOfToDecimal(n);
    assert n > 0 by { assert Pow10(k - 1) >= 1; }
    if |s| < k {
      Pow10Monotone(|s|, k - 1);
    } else if |s| > k {
      Pow10Monotone(k, |s| - 1);
    }
  }

  /** The code `generateOtp` returns for a given draw. */
  function GenerateOtp(draw: int): (code: string)
    requires 0 <= draw < CodeRange
    ensures |code| == CodeLength
    ensures AllDigits(code) && code[0] != '0'
    ensures ParseDecimal(code) == MinCode + draw
  {
    var n := MinCode + draw;
    assert Pow10(5) == 100000 && Pow10(6) == 1000000;
    DecimalLength(n, CodeLength);
    ParseOfToDecimal(n);
    ToDecimal(n)
  }

  /** The generator hits every six-digit string without a leading zero, and exactly one
      draw produces it: the codes are precisely the numbers 100000..999999. */
  lemma {:induction false} EveryCodeIsGenerated(code: string)
    requires |code| == CodeLength && AllDigits(code) && code[0] != '0'
    ensures MinCode <= ParseDecimal(code) < MinCode + CodeRange
    ensures GenerateOtp(ParseDecimal(code) - MinCode) == code
  {
    assert Pow10(5) == 100000 && Pow10(6) == 1000000;
    ToDecimalOfParse(code);
  }
}

=== FILE: seqs.dfy ===
/** Small sequence utilities: first-match search, the subsequence relation and element
    counts. */
module Seqs {
  import opened Wrappers

  /** Index of the first element satisfying `p`, the way `rows[0]` of a filtered
      result set or `Array.prototype.find` picks it. */
  function FirstIndex<T>(s: seq<T>, p: T -> bool): (r: Option<nat>)
    ensures r.Some? ==> r.value < |s| && p(s[r.value])
    ensures r.Some? ==> forall j :: 0 <= j < r.value ==> !p(s[j])
    ensures r.None? <==> forall j :: 0 <= j < |s| ==> !p(s[j])
  {
    if |s| == 0 then None
    else if p(s[0]) then Some(0)
    else match FirstIndex(s[1..], p)
      case None => None
      case Some(k) => Some(k + 1)
  }

  /** `a` can be obtained from `b` by deleting elements, keeping the order of the rest. */
  predicate IsSubsequence<T(==)>(a: seq<T>, b: seq<T>)
    decreases |b|
  {
    |a| == 0 ||
    (|b| > 0 && ((a[0] == b[0] && IsSubsequence(a[1..], b[1..])) || IsSubsequence(a, b[1..])))
  }

  /** If two positions of a sequence hold the same value, that value occurs at least twice. */
  lemma RepeatedValueCountsTwice<T>(s: seq<T>, i: nat, j: nat)
    requires i < j < |s| && s[i] == s[j]
    ensures multiset(s)[s[i]] >= 2
  {
    assert s == s[..j] + [s[j]] + s[j + 1..];
    assert s[i] == s[..j][i];
    assert s[i] in multiset(s[..j]);
  }

  /** A sequence whose every element is `e` holds it once per position. */
  lemma {:induction false} CountOfConstant<T>(r: seq<T>, e: T)
    requires forall x :: x in r ==> x == e
    ensures multiset(r)[e] == |r|
  {
    if |r| > 0 {
      assert r == [r[0]] + r[1..];
      assert r[0] in r;
      assert forall x :: x in r[1..] ==> x in r;
      CountOfConstant(r[1..], e);
      assert multiset(r) == multiset{r[0]} + multiset(r[1..]);
    }
  }
}

=== FILE: user_store.dfy ===
/** The `users` table and the row-level operations of backend/models/User.js.
    The table is a sequence of rows in insertion order plus the next AUTO_INCREMENT id. */
module UserStore {
  import opened Wrappers
  import opened Seqs

  /** One row of `users`. `password` holds the bcrypt hash; `otp` is NULL once verified. */
  datatype UserRow = UserRow(
    id: nat,
    name: string,
    email: string,
    password: string,
    otp: Option<string>,
    isVerified: bool,
    isAdmin: bool)

  /** The public-safe projection `SELECT id, name, email, is_verified` (no password, no otp). */
  datatype PublicUser = PublicUser(id: nat, name: string, email: string, isVerified: bool)

  datatype UserTable = UserTable(rows: seq<UserRow>, nextId: nat)

  /** Storage errors the controllers turn into a 500 response. */
  datatype StoreError = DuplicateEmail

  /** The table's constraints: `email` is UNIQUE, `id` is an AUTO_INCREMENT primary key. */
  ghost predicate Valid(t: UserTable) {
    && (forall i, j :: 0 <= i < j < |t.rows| ==> t.rows[i].email != t.rows[j].email)
    && (forall i, j :: 0 <= i < j < |t.rows| ==> t.rows[i].id < t.rows[j].id)
    && (forall i :: 0 <= i < |t.rows| ==> t.rows[i].id < t.nextId)
  }

  ghost predicate HasEmail(t: UserTable, email: string) {
    exists u :: u in t.rows && u.email == email
  }

  ghost predicate HasId(t: UserTable, id: int) {
    exists u :: u in t.rows && u.id == id
  }

  function Publish(u: UserRow): PublicUser {
    PublicUser(u.id, u.name, u.email, u.isVerified)
  }

  /** `findUserByEmail`: `SELECT * FROM users WHERE email = ?`, first row or nothing. */
  function FindUserByEmail(t: UserTable, email: string): (r: Option<UserRow>)
    ensures r.Some? <==> HasEmail(t, email)
    ensures r.Some? ==> r.value in t.rows && r.value.email == email
    ensures Valid(t) ==> forall i :: 0 <= i < |t.rows| && t.rows[i].email == email ==> r == Some(t.rows[i])
  {
    match FirstIndex(t.rows, (u: UserRow) => u.email == email)
    case None => None
    case Some(i) => Some(t.rows[i])
  }

  /** `findUserById`: `SELECT * FROM users WHERE id = ?`, first row or nothing. */
  function FindUserById(t: UserTable, id: int): (r: Option<UserRow>)
    ensures r.Some? <==> HasId(t, id)
    ensures r.Some? ==> r.value in t.rows && r.value.id == id
    ensures Valid(t) ==> forall i :: 0 <= i < |t.rows| && t.rows[i].id == id ==> r == Some(t.rows[i])
  {
    match FirstIndex(t.rows, (u: UserRow) => u.id == id)
    case None => None
    case Some(i) => Some(t.rows[i])
  }

  /** `findAllUsers`: every row, in table order, projected to id, name, email, is_verified. */
  function FindAllUsers(t: UserTable): (r: seq<PublicUser>)
    ensures |r| == |t.rows|
    ensures forall i :: 0 <= i < |r| ==>
      r[i].id == t.rows[i].id && r[i].name == t.rows[i].name &&
      r[i].email == t.rows[i].email && r[i].isVerified == t.rows[i].isVerified
  {
    seq(|t.rows|, i requires 0 <= i < |t.rows| => Publish(t.rows[i]))
  }

  /** `createUser`: `INSERT INTO users (name, email, password, otp, is_verified) VALUES (…, 0)`.
      `is_admin` takes its column default 0; a duplicate email violates the UNIQUE key. */
  function CreateUser(t: UserTable, name: string, email: string, hashedPassword: string, otp: string)
    : (r: Result<UserTable, StoreError>)
    ensures r.Err? <==> HasEmail(t, email)
    ensures r.Ok? ==> r.value.rows == t.rows + [UserRow(t.nextId, name, email, hashedPassword, Some(otp), false, false)]
    ensures r.Ok? ==> r.value.nextId == t.nextId + 1
  {
    if FindUserByEmail(t, email).Some? then Err(DuplicateEmail)
    else Ok(UserTable(t.rows + [UserRow(t.nextId, name, email, hashedPassword, Some(otp), false, false)], t.nextId + 1))
  }

  /** Applies `f` to the rows whose email matches, the effect of an `UPDATE … WHERE email = ?`. */
  function UpdateWhereEmail(t: UserTable, email: string, f: UserRow -> UserRow): (r: UserTable)
    ensures |r.rows| == |t.rows| && r.nextId == t.nextId
    ensures forall i :: 0 <= i < |t.rows| ==>
      r.rows[i] == if t.rows[i].email == email then f(t.rows[i]) else t.rows[i]
  {
    UserTable(seq(|t.rows|, i requires 0 <= i < |t.rows| =>
      if t.rows[i].email == email then f(t.rows[i]) else t.rows[i]), t.nextId)
  }

  /** `updateUserOtp`: `UPDATE users SET otp = ? WHERE email = ?`. */
  function UpdateUserOtp(t: UserTable, email: string, otp: string): (r: UserTable)
    ensures |r.rows| == |t.rows| && r.nextId == t.nextId
    ensures forall i :: 0 <= i < |t.rows| && t.rows[i].email == email ==> r.rows[i].otp == Some(otp)
    ensures forall i :: 0 <= i < |t.rows| ==> r.rows[i].(otp := t.rows[i].otp) == t.rows[i]
    ensures forall i :: 0 <= i < |t.rows| && t.rows[i].email != email ==> r.rows[i] == t.rows[i]
  {
    UpdateWhereEmail(t, email, (u: UserRow) => u.(otp := Some(otp)))
  }

  /** `verifyUserOtp`: `UPDATE users SET is_verified = 1, otp = NULL WHERE email = ?`. */
  function VerifyUserOtp(t: UserTable, email: string): (r: UserTable)
    ensures |r.rows| == |t.rows| && r.nextId == t.nextId
    ensures forall i :: 0 <= i < |t.rows| && t.rows[i].email == email ==>
      r.rows[i].isVerified && r.rows[i].otp == None
    ensures forall i :: 0 <= i < |t.rows| ==>
      r.rows[i].(isVerified := t.rows[i].isVerified, otp := t.rows[i].otp) == t.rows[i]
    ensures forall i :: 0 <= i < |t.rows| && t.rows[i].email != email ==> r.rows[i] == t.rows[i]
  {
    UpdateWhereEmail(t, email, (u: UserRow) => u.(isVerified := true, otp := None))
  }

  /** An update that keeps ids and emails keeps the table's constraints and its set of emails. */
  lemma UpdateKeepsKeys(t: UserTable, email: string, f: UserRow -> UserRow)
    requires forall u :: f(u).id == u.id && f(u).email == u.email
    ensures var r := UpdateWhereEmail(t, email, f);
      && (Valid(t) ==> Valid(r))
      && (forall e :: HasEmail(r, e) <==> HasEmail(t, e))
  {
  }

  /** `createUser` keeps the table's constraints, and the new row is what `findUserByEmail`
      and `findUserById` then return. */
  lemma CreateUserThenFind(t: UserTable, name: string, email: string, hashedPassword: string, otp: string)
    requires Valid(t) && !HasEmail(t, email)
    ensures var r := CreateUser(t, name, email, hashedPassword, otp);
      && r.Ok?
      && Valid(r.value)
      && FindUserByEmail(r.value, email) == Some(UserRow(t.nextId, name, email, hashedPassword, Some(otp), false, false))
      && FindUserById(r.value, t.nextId) == Some(UserRow(t.nextId, name, email, hashedPassword, Some(otp), false, false))
  {
  }

  /** `verifyUserOtp` keeps the constraints and leaves the matching user verified with no code. */
  lemma VerifyUserOtpThenFind(t: UserTable, email: string)
    requires Valid(t) && HasEmail(t, email)
    ensures var r := VerifyUserOtp(t, email);
      && Valid(r)
      && (forall e :: HasEmail(r, e) <==> HasEmail(t, e))
      && FindUserByEmail(r, email).Some?
      && FindUserByEmail(r, email).value.isVerified
      && FindUserByEmail(r, email).value.otp == None
      && FindUserByEmail(r, email).value.(isVerified := false, otp := None)
         == FindUserByEmail(t, email).value.(isVerified := false, otp := None)
  {
  }
}

=== FILE: wrappers.dfy ===
/** Option and Result, shared by every module of the model. */
module Wrappers {

  /** A value that may be absent: a SQL NULL, a missing request field, an empty result set. */
  datatype Option<+T> = None | Some(value: T)

  /** The outcome of a request handler: a success value or the error it answers with. */
  datatype Result<+T, +E> = Ok(value: T) | Err(error: E)
}
